=== FILE: README.md ===
# Ring, membership and replication of the evergreen key-value store

This project models the core of a small peer-to-peer key-value store in
Dafny. Every peer holds a hash ring of node ids with an id-to-address map
and a last-modified timestamp. Peers gossip that membership to each other,
and client requests are sent to the key's preference list. The model has
these modules:

- `HashId`: turning a digest into a ring position. The first 8 bytes are
  read big-endian as a signed `long` (ClusterMember and Node); the first 4
  bytes are read as a signed `int` (Coordinator).
- `Ring`: the binary search for the first member at or above a hash
  (`Search`). It is checked against a reference definition
  (`FirstAtLeast`). The module also holds the wrap-around walk that builds
  a preference list (`Successors`).
- `Membership`: the state shared by both peer classes (ring, map,
  `nodesUpdatedTime`, replication factor), the freshness gate, and the
  seeding done by the constructors.
- `ClusterMember`:
  - a union merge in which an empty address is a tombstone;
  - a delete that bumps the timestamp;
  - a replication factor capped at 2;
  - the preference list;
  - the index arithmetic of `rebalanceOnAdd`.
- `Node`:
  - a merge that replaces the whole map;
  - a delete that keeps the timestamp;
  - a replication factor capped at 3;
  - the ring-join handler;
  - the preference list as written and as corrected;
  - the client GET, POST and DELETE handlers.
- `Replication`: the read failover chain (as written and corrected) and
  the write and delete fan-out loops. Node and Coordinator share these.
- `Coordinator`: the 32-bit replica-server selection and its three
  handlers.

Every HTTP call becomes an element of a `seq<Outcome>` that lines up with
the list of targets. An outcome is either `Response(status, body)` or
`TransportFailure`. A handler's reply is the `Ctx` (status, result) it has
set, or `Threw` when the handler throws out. Decoded JSON is passed in as
`Option<map<Long, string>>`, with `None` for a body that does not parse.
MD5 is a parameter `md: string -> Digest`, where a digest is 16 bytes.
The clock and the randomly chosen gossip peer are also parameters (`now`,
`target`).

**Sorted views.** The ring is a `set<Long>`. Its array view (the source's
`PriorityQueue.toArray`) is passed separately as `nodes: seq<Long>`.
`toArray` returns the heap's internal order, which is not sorted in
general. The source's binary searches assume a sorted array. So every fact
that depends on ring order is stated under `Sorted(nodes)` (strictly
increasing), a condition the source never establishes. Facts that do not
depend on order, such as lengths, membership, distinctness and fan-out
behaviour, hold for any view. `ViewOf(nodes, ring)` says that the array
lists exactly the ring's members. Facts about ring membership, such as
"every write target is on the ring", are stated under it.
`WalksFrom(nodes, start, list)` says that entry k of the list is the array
entry at (start + k) mod n. Every preference list has that shape on any
view. On a sorted view the start is the key's owner, except for the
as-written Node.CalculatePreferenceList, whose start is 0 (see Findings).

## Model

| member | source | states |
|---|---|---|
| HashId.UnsignedOfBytes | src/main/java/com/evergreen/keyval/ClusterMember.java:102-106 | Reading back the k-byte big-endian encoding of a value gives that value. |
| HashId.BytesOfUnsigned | src/main/java/com/evergreen/keyval/ClusterMember.java:102-106 | Re-encoding the value read from a byte string gives the same bytes. |
| HashId.LongIdOfLongBytes | src/main/java/com/evergreen/keyval/ClusterMember.java:102-106 | getLong on a digest whose first 8 bytes are the two's complement encoding of x gives x. Every long is reachable as an id. |
| HashId.LongId | src/main/java/com/evergreen/keyval/Node.java:113-117 | getLong of a digest loses nothing: putLong of the 64-bit id gives back exactly the first 8 digest bytes. With LongIdOfLongBytes this is a two-way round trip. |
| HashId.CalculateId | src/main/java/com/evergreen/keyval/ClusterMember.java:102-106 | calculateID in ClusterMember and Node: the 64-bit id of an address or key is the first 8 bytes of its digest, read back exactly (putLong of the id gives those bytes). |
| HashId.CalculateId32 | src/main/java/com/evergreen/keyval/Coordinator.java:38-42 | calculateID in Coordinator: the 32-bit id of a key is its 64-bit id floor-divided by 2^32, i.e. getInt of the first 4 digest bytes. |
| HashId.IntIdIsHighHalf | src/main/java/com/evergreen/keyval/Coordinator.java:38-42 | The 32-bit id (getInt on the first 4 bytes) is the 64-bit id shifted arithmetically right by 32 bits, so it lies in the int range. |
| Ring.FirstAtLeast | src/main/java/com/evergreen/keyval/ClusterMember.java:114-129 | Reference lookup: a position in [0, n] such that every earlier entry is below the id and the entry there, if any, is at least the id. |
| Ring.Search | src/main/java/com/evergreen/keyval/ClusterMember.java:114-129 | The binary search returns a position in [0, n]. On a sorted array it equals the reference lookup, and a member id is found at its own index. |
| Ring.Successors | src/main/java/com/evergreen/keyval/ClusterMember.java:135-141 | The preference-list loop yields exactly count entries, and entry k is the array entry at (start + k) mod n. |
| Ring.SuccessorsDistinct | src/main/java/com/evergreen/keyval/ClusterMember.java:131-142 | With no duplicate ids and count at most n, a preference list never names a node twice. |
| Ring.SuccessorsWrap | src/main/java/com/evergreen/keyval/ClusterMember.java:138 | Starting a full lap later gives the same list, so a search result of n wraps to position 0. |
| Membership.SeedMap | src/main/java/com/evergreen/keyval/ClusterMember.java:46-50 | The seeded map's keys are exactly the seeds' ids, and every entry is a seed stored under its own id. |
| Membership.SeedMapLastWins | src/main/java/com/evergreen/keyval/ClusterMember.java:48-50 | A seed is found under its id unless a later, different seed has the same id. |
| Membership.Seed | src/main/java/com/evergreen/keyval/Node.java:55-67 | After construction the ring is the seeds' ids plus this node's id, and the map's keys are the ring. The map sends this node's id to its own host:port and every key to an address hashing to it. The timestamp is now, and replicas is min(cap, number of seeds + 1). |
| ClusterMember.Create | src/main/java/com/evergreen/keyval/ClusterMember.java:35-55 | The constructed member is on its own ring under its own address, every ring id is in the map, and replicas lies between 1 and 2, equal to 2 once there is a seed. |
| ClusterMember.UpdateMembership | src/main/java/com/evergreen/keyval/ClusterMember.java:186-208 | Nothing changes unless the gate passes, the map parses and it differs from the local one. Otherwise every incoming entry, tombstones included, overwrites; other entries are kept; the ring is the union of old and new ids minus the incoming tombstones; the time is now. Ring ids stay map keys. |
| ClusterMember.MergeTwiceSameView | src/main/java/com/evergreen/keyval/ClusterMember.java:186-208 | Merging the same map a second time, after an applied first merge, changes neither ring nor map. |
| ClusterMember.TombstoneRevivedByLaterMerge | src/main/java/com/evergreen/keyval/ClusterMember.java:192-201 | An id tombstoned earlier and missing from the next incoming map returns to the ring with an empty address, because the ring is rebuilt from map keys. |
| ClusterMember.DeleteNode | src/main/java/com/evergreen/keyval/ClusterMember.java:210-214 | The id leaves ring and map, every other id and address is unchanged, and the timestamp becomes now. |
| ClusterMember.GossipTick | src/main/java/com/evergreen/keyval/ClusterMember.java:57-97 | An unreachable peer is removed from ring and map, nothing else in the map changes, and the timestamp becomes now. An answer with a Last-Modified header has exactly the ring, map and timestamp of UpdateMembership applied to it; without one they are unchanged. After an answer replicas becomes min(2, ring size). The member's own id and address never change. |
| ClusterMember.CalculateNodeIdx | src/main/java/com/evergreen/keyval/ClusterMember.java:108-112 | The address overload hashes and then searches. On a sorted array the result is the first position at or above the address's id, and a member address is found at its own index. |
| ClusterMember.CalculatePreferenceList | src/main/java/com/evergreen/keyval/ClusterMember.java:131-142 | There is no list (division by zero) iff the ring is empty and replicas > 0. Otherwise it has replicas array entries and, on any array, walks it from one start position at most n, wrapping. On a sorted array that start is the key's owner, and entries are distinct when ids are. |
| ClusterMember.RebalanceIndices | src/main/java/com/evergreen/keyval/ClusterMember.java:148-158 | For 0 <= nodeIdx < n, the predecessor index is (nodeIdx - 1) mod n. With replicas <= n, the lower-bound index is (nodeIdx - replicas) mod n. Both lie in [0, n). |
| ClusterMember.PlanFor | src/main/java/com/evergreen/keyval/ClusterMember.java:144-174 | With a position inside the array and replicas <= n there is a plan. For a non-empty array and a position at most n (the search's range), a plan exists exactly when replicas <= n + nodeIdx and, at position n, replicas > 0: the source builds a plan at position n too and throws only when its index reads fall outside the array. Its predecessor and lower bound are the wrapped entries, the upper bound is this node, and delete i goes to entry (nodeIdx + i + 1) mod n with upper bound entry (lower + i + 1) mod n. |
| ClusterMember.PlanForInRing | src/main/java/com/evergreen/keyval/ClusterMember.java:148-174 | At any in-array position with replicas <= n, the plan is the one expected there, with the indices written as true remainders mod n. |
| ClusterMember.RebalanceOnAdd | src/main/java/com/evergreen/keyval/ClusterMember.java:144-174 | On a sorted array containing this node with replicas <= n, the search finds this node, so nodeIdx < n, and the plan is the expected one at that position. When the array is a sorted view of the ring holding this node, the predecessor, the lower bound, every delete target and every delete bound are ring members. |
| ClusterMember.PredecessorIsRingPredecessor | src/main/java/com/evergreen/keyval/ClusterMember.java:148-153 | On a sorted array the node asked for keys is the ring predecessor: the next smaller id, or the largest id when this node is the smallest. |
| Node.Create | src/main/java/com/evergreen/keyval/Node.java:55-67 | The constructed node's ring equals its map's key set, contains its own id under its own address, and replicas lies between 1 and 3, equal to 3 once there are two seeds. |
| Node.UpdateMembership | src/main/java/com/evergreen/keyval/Node.java:147-158 | A fresh map that parses replaces the local map wholesale, the ring becomes its key set, and the time is now. A stale or unparsable one changes nothing. The ring stays equal to the key set. |
| Node.MergeTwiceSameView | src/main/java/com/evergreen/keyval/Node.java:147-158 | Merging the same map twice gives the same ring and map as merging it once. |
| Node.DeleteNode | src/main/java/com/evergreen/keyval/Node.java:160-163 | The id leaves ring and map, every other entry is unchanged, and the timestamp is NOT bumped. |
| Node.GossipTick | src/main/java/com/evergreen/keyval/Node.java:69-107 | An unreachable peer is removed from ring and map, nothing else in the map changes, and replicas and time stay as they were. An answer with a Last-Modified header has exactly the ring, map and timestamp of UpdateMembership applied to it; without one they are unchanged. After an answer replicas becomes min(3, ring size). The node's own id and address never change. |
| Node.RingJoin | src/main/java/com/evergreen/keyval/Node.java:347-366 | The forced merge (sentinel 0) always applies: the ring becomes the fetched ids plus this node, and the map becomes the fetched map with this node under its own address. A fetched body that does not parse leaves the map as it was apart from this node's own entry, and adds this node to the ring. A failed fetch changes nothing. |
| Node.AboveLast | src/main/java/com/evergreen/keyval/Node.java:124-136 | On a sorted array, a hash above the last entry makes the search end at n. |
| Node.CalculatePreferenceList | src/main/java/com/evergreen/keyval/Node.java:119-145 | As written: an empty ring throws. On any array the list walks it from one start position at most n. On any array, a key hashing at or below the last entry gets the walk from 0. On a sorted array the start is 0 whatever the key, so the list is always the first replicas ids. |
| Node.WrittenStart | src/main/java/com/evergreen/keyval/Node.java:122-136 | With the written guard (search only when the hash is above the largest id, else start at 0), a sorted array is always walked from its first entry. |
| Node.WrittenGuardMissesOwner | src/main/java/com/evergreen/keyval/Node.java:124 | On a sorted ring, a key hashing into (nodes[0], nodes[1]] belongs to nodes[1], but the written list starts at the different node nodes[0]. |
| Node.CorrectedPreferenceList | src/main/java/com/evergreen/keyval/Node.java:119-145 | With the guard reversed, the list has replicas entries and, on any array, walks it from one start position at most n. On a sorted array the start is the key's owner, the first id at or above the key's hash. On any array, a key hashing above the last entry gets the walk from 0. The list is distinct when ids are. |
| Node.OwnerStart | src/main/java/com/evergreen/keyval/Node.java:122-136 | Searching only when the hash is at most the largest id, and starting at 0 otherwise, walks the ring from the key's owner. |
| Node.FailoverGetSublist | src/main/java/com/evergreen/keyval/Node.java:199-201 | Running the chain on the preference list minus its first entry is running it from position 1. |
| Node.ReadFromRest | src/main/java/com/evergreen/keyval/Node.java:199-201 | The chain over the preference list minus its first entry is the corrected chain from position 1. What it asks is a prefix of that sublist: up to the first response, or all of it when every entry fails. On a sorted array the asked entries walk the ring from one past the owner. |
| Node.ClientGet | src/main/java/com/evergreen/keyval/Node.java:193-213 | A local hit answers 200 with the value and asks nobody. Otherwise the returned preference list has replicas entries walking the array from one start, on any array, and what is asked is a prefix of that list minus its first entry, up to the first response, which decides. All failures give 404 after asking replicas - 1 entries; replicas 0 or an empty ring throws. On a sorted view the returned list walks from the key's owner and the asked entries from one past it, and on any view of the ring the asked entries are ring members. |
| Node.ClientPost | src/main/java/com/evergreen/keyval/Node.java:215-251 | The write goes to replicas targets that walk the array from one start, on any array, in order; on a sorted array the start is the key's owner, and on a view of the ring every target is a ring member. The status is from the last replica that answered; the result is the last body, and none when no answer had one; all failures leave the reply untouched. |
| Node.ClientDelete | src/main/java/com/evergreen/keyval/Node.java:253-282 | The delete goes to replicas targets that walk the array from one start, on any array, in order; on a sorted array the start is the key's owner, and on a view of the ring every target is a ring member. The status is the last answering replica's code, and no result is set. |
| Replication.ReadReplyIgnoresStatus | src/main/java/com/evergreen/keyval/Node.java:175-181 | Two responses that differ only in their status code give the same reply, so a remote 500 with a body still answers 200. |
| Replication.AskedUntil | src/main/java/com/evergreen/keyval/Node.java:165-191 | The chain contacts the targets from step up to and including the first that answers, or every remaining target when all fail. |
| Replication.RecursiveGet | src/main/java/com/evergreen/keyval/Node.java:165-191 | As written: the first response at or after step decides the reply, and the handler throws exactly when every remaining target fails. |
| Replication.RecursiveGetExhausted | src/main/java/com/evergreen/keyval/Node.java:182-187 | When every target is unreachable, the written chain throws rather than answering 404. |
| Replication.FailoverGet | src/main/java/com/evergreen/keyval/Node.java:165-191 | Corrected chain: it always replies, the first response decides, and it answers 404 once every target has failed. |
| Replication.FailoverGetRefines | src/main/java/com/evergreen/keyval/Node.java:165-191 | Wherever the written chain replies, the corrected chain gives the same reply. |
| Replication.FailoverAsk | src/main/java/com/evergreen/keyval/Coordinator.java:69-98 | The corrected chain over a target list, with the targets it contacted: a prefix of the list ending at the first response, or the whole list when every target fails. |
| Replication.FanOutPost | src/main/java/com/evergreen/keyval/Node.java:220-243 | Every target is sent the write, in order. The status is from the last target that answered (200, or 404 for a null body); the result is the last body; all failures leave the reply untouched. |
| Replication.FanOutDelete | src/main/java/com/evergreen/keyval/Node.java:258-274 | Every target is sent the delete, in order. The status is the last answering target's code; no result is set. |
| Coordinator.CalculateReplicaServers | src/main/java/com/evergreen/keyval/Coordinator.java:44-67 | Returns min(3, n) entries, the addresses of servants walked from one start position at most n, on any array. On a sorted array the start is the owner of the key's 32-bit hash. Every entry is an address when all servants are mapped. |
| Coordinator.HandleGet | src/main/java/com/evergreen/keyval/Coordinator.java:69-110 | The returned replica-server list is the addresses of min(3, n) servants walked from one start, on any array, and the asked servers are a prefix of it, up to the first response. The first response decides; a null body gives 404 with a blank result; all failures give 404 after asking every server. On a sorted array the walk starts at the key's owner. |
| Coordinator.HandlePost | src/main/java/com/evergreen/keyval/Coordinator.java:112-146 | The write is sent, in order, to exactly the returned replica-server list: the addresses of min(3, n) servants walked from one start, on any array, from the key's owner on a sorted array. The status is the last answering one's, and the result is the last body. |
| Coordinator.HandleDelete | src/main/java/com/evergreen/keyval/Coordinator.java:148-175 | The delete is sent, in order, to exactly the returned replica-server list: the addresses of min(3, n) servants walked from one start, on any array, from the key's owner on a sorted array. The status is the last answering one's code, and no result is set. |

## Left out

- HTTP routing, `HttpClient` and URI building: each remote call is an element of an outcome sequence. A URISyntaxException (only possible for a malformed address) is not modelled.
- JSON encoding and decoding with Jackson: the decoded map is passed in, with a parse failure as `None`. `Long.parseLong` failures on a header are not modelled.
- ClusterMember.UpdateMembership: a received map holding a JSON `null` value is not modelled. The model's values are strings. In the source, `isEmpty()` on such a value throws at ClusterMember.java:197 after the ring was rebuilt at :195. The exception is caught at :204, which leaves a partial merge: the id is on the ring without a map entry, and the timestamp is not bumped. So `RingInMap` is not promised for that input.
- Node.UpdateMembership: a body that is the JSON literal `null` is not modelled. In the source it sets the map to null at Node.java:150, and the next line throws, leaving a null map behind. The model treats every decodable body as a map.
- MD5: the digest is the parameter `md`. Only the byte-to-integer extraction is modelled.
- `Timer`, `Math.random`, `Instant.now()` and `synchronized`: the chosen peer and the time are parameters. Races between the gossip thread and the handlers are out of scope.
- A gossip tick on an empty ring, where the source's random index would throw, is not modelled separately.
- Membership: `PriorityQueue` keeps duplicate ids (a seed listed twice, `nodes.add(this.id)` in the ring join) where the model's `set` keeps one. The replication factor still counts the seed list with its duplicates, as the constructors do.
- ClusterMember.RebalanceOnAdd: only the request parameters are modelled. Fetching, storing and deleting the key ranges is left out; those are remote `/keys` handlers and `DBClient` writes.
- Node's direct handlers (`/{key}`), `handleNodesGet`, `handleAllNodesPost` and `handleNodeDelete` are thin wrappers over storage or over the modelled merge and delete. They are not modelled.
- `DBClient`, `Servant` and `Main`: storage wrappers and command-line dispatch. The local store is visible only as ClientGet's `local` argument.
- The `Coordinator` constructor: only its selection and request loops are modelled.
- Node.ClientGet, Node.ClientPost, Node.ClientDelete and Coordinator.HandleGet use the corrected preference list and failover chain listed under Findings. The as-written behaviour is kept in Node.CalculatePreferenceList and Replication.RecursiveGet.
- Ring.Search and the other order-dependent facts hold only on a sorted array view; the source's `toArray` is in heap order.
- Node.ClientGet, Node.ClientPost, Node.ClientDelete: on a heap-ordered view the targets are the returned preference list, one wrapping walk of the array, but the walk's start is only bounded by n. The binary search's result on such a view depends on the heap layout, which the model does not fix.
- Coordinator.HandleGet, Coordinator.HandlePost, Coordinator.HandleDelete: likewise, on a heap-ordered view the servers are one wrapping walk of the servant array from a start at most n, not a start computed from the key.

## Findings

| source | as written | input that shows it | evidently intended | confidence | as-written member | corrected member |
|---|---|---|---|---|---|---|
| src/main/java/com/evergreen/keyval/Node.java:124 | The search runs only when `hash > nodes[n-1]`. On a sorted view it then ends at n, which wraps to 0, and otherwise start stays 0. So on a sorted view the preference list is always the first `replicas` ids. On a heap-ordered view the search can stop elsewhere. | Sorted ring `[10, 20, 30]`, replicas 1, a key hashing to 15: the list is `[10]`, but the owner is 20. | Search when `hash <= nodes[n-1]`, and wrap to 0 above the largest id, so the list starts at the key's owner. | not executed | Node.CalculatePreferenceList, Node.WrittenGuardMissesOwner | Node.CorrectedPreferenceList |
| src/main/java/com/evergreen/keyval/Node.java:183 (likewise src/main/java/com/evergreen/keyval/Coordinator.java:89) | `step >= nodes.size()` cannot hold after `nodes.get(step)` succeeded. So when every target fails, the next `get` throws IndexOutOfBoundsException instead of answering 404. | Two targets, both transport failures: steps 0 and 1 fail and step 2 throws. | Answer 404 once every target has failed. | not executed | Replication.RecursiveGet, Replication.RecursiveGetExhausted | Replication.FailoverGet, Replication.FailoverGetRefines |

=== FILE: cluster_member.dfy ===
/**
 * ClusterMember: the gossiping ring member with replication factor at most
 * 2, a union-style membership merge that honours leave tombstones, and the
 * index arithmetic of the rebalance run after joining a ring.
 */
module ClusterMember {
  import opened Wrappers
  import opened HashId
  import opened Ring
  import opened Membership

  const ReplicaCap: nat := 2

  /** Every ring member has an entry in the map; tombstoned ids keep an entry but leave the ring. */
  predicate RingInMap(s: State)
  {
    s.ring <= s.addresses.Keys
  }

  /** The constructor, with a replication factor of at most 2. */
  function Create(md: Digester, address: string, seeds: seq<string>, now: int): (s: State)
    ensures RingInMap(s) && s.ring == s.addresses.Keys
    ensures s.id in s.ring && s.addresses[s.id] == address
    ensures 1 <= s.replicas <= ReplicaCap && s.replicas <= |seeds| + 1
    ensures |seeds| >= 1 ==> s.replicas == ReplicaCap
  {
    Seed(md, address, seeds, now, ReplicaCap)
  }

  /** The ids an incoming map marks as having left the ring. */
  function Tombstones(m: map<Long, string>): set<Long>
  {
    set k | k in m && m[k] == ""
  }

  /**
   * updateMembership: a received map (None when it does not parse) is
   * merged only if its Last-Modified value passes the freshness gate and it
   * differs from the local map.  The merge overwrites every received entry
   * (an empty address included), keeps every other entry, rebuilds the ring
   * from the union of both maps' ids minus the received tombstones, and
   * stamps the state with now.
   */
  function UpdateMembership(s: State, received: Option<map<Long, string>>, lastModified: int, now: int): (r: State)
    ensures !Fresh(lastModified, s.updatedAt) ==> r == s
    ensures received.None? ==> r == s
    ensures received.Some? && received.value == s.addresses ==> r == s
    ensures Fresh(lastModified, s.updatedAt) && received.Some? && received.value != s.addresses ==>
              var m := received.value;
              && r.addresses.Keys == s.addresses.Keys + m.Keys
              && (forall k :: k in m ==> r.addresses[k] == m[k])
              && (forall k :: k in s.addresses && k !in m ==> r.addresses[k] == s.addresses[k])
              && (forall k :: k in r.ring <==> k in r.addresses && (k in m ==> m[k] != ""))
              && r.updatedAt == now
    ensures r.id == s.id && r.address == s.address && r.replicas == s.replicas
    ensures RingInMap(s) ==> RingInMap(r)
  {
    if !Fresh(lastModified, s.updatedAt) || received.None? || received.value == s.addresses then s
    else
      var m := received.value;
      s.(ring := (m.Keys + s.addresses.Keys) - Tombstones(m),
         addresses := s.addresses + m,
         updatedAt := now)
  }

  /** deleteNode: the id leaves both the ring and the map, and the timestamp moves to now. */
  function DeleteNode(s: State, nodeId: Long, now: int): (r: State)
    ensures nodeId !in r.ring && nodeId !in r.addresses
    ensures forall k :: k != nodeId ==> (k in r.ring <==> k in s.ring)
    ensures forall k :: k != nodeId ==> (k in r.addresses <==> k in s.addresses)
    ensures forall k :: k in r.addresses ==> r.addresses[k] == s.addresses[k]
    ensures r.updatedAt == now
    ensures r.id == s.id && r.address == s.address && r.replicas == s.replicas
    ensures RingInMap(s) ==> RingInMap(r)
  {
    s.(ring := s.ring - {nodeId}, addresses := s.addresses - {nodeId}, updatedAt := now)
  }

  /**
   * One run of the gossip timer task against the chosen peer: an
   * unreachable peer is evicted; otherwise the pulled view is merged when
   * it carries a Last-Modified header, and the replication factor is
   * recomputed from the ring size.
   */
  function GossipTick(s: State, target: Long, exchange: Exchange, now: int): (r: State)
    ensures exchange.Unreachable? ==>
              && target !in r.ring && target !in r.addresses
              && r.ring == s.ring - {target}
              && r.addresses == s.addresses - {target}
              && r.updatedAt == now && r.replicas == s.replicas
    ensures exchange.Answered? ==> r.replicas == Min(ReplicaCap, |r.ring|) && r.replicas <= |r.ring|
    ensures exchange.Answered? && exchange.lastModified.None? ==>
              r.ring == s.ring && r.addresses == s.addresses && r.updatedAt == s.updatedAt
    ensures exchange.Answered? && exchange.lastModified.Some? ==>
              var u := UpdateMembership(s, exchange.membership, exchange.lastModified.value, now);
              r.ring == u.ring && r.addresses == u.addresses && r.updatedAt == u.updatedAt
    ensures r.id == s.id && r.address == s.address
    ensures RingInMap(s) ==> RingInMap(r)
  {
    match exchange
    case Unreachable => DeleteNode(s, target, now)
    case Answered(lastModified, membership) =>
      var merged := if lastModified.Some? then UpdateMembership(s, membership, lastModified.value, now) else s;
      merged.(replicas := Min(ReplicaCap, |merged.ring|))
  }

  /** Merging the same map a second time leaves ring and map as they are. */
  lemma MergeTwiceSameView(s: State, m: map<Long, string>, lm1: int, now1: int, lm2: int, now2: int)
    requires Fresh(lm1, s.updatedAt)
    ensures var r1 := UpdateMembership(s, Some(m), lm1, now1);
            var r2 := UpdateMembership(r1, Some(m), lm2, now2);
            r2.ring == r1.ring && r2.addresses == r1.addresses
  {
    var r1 := UpdateMembership(s, Some(m), lm1, now1);
    if r1 != s {
      var r2 := UpdateMembership(r1, Some(m), lm2, now2);
      if r2 != r1 {
        assert r1.addresses.Keys == s.addresses.Keys + m.Keys;
        assert r2.addresses == r1.addresses;
        assert (m.Keys + r1.addresses.Keys) - Tombstones(m) == (m.Keys + s.addresses.Keys) - Tombstones(m);
      }
    }
  }

  /**
   * An id tombstoned earlier and absent from the next received map comes
   * back onto the ring, still with an empty address: the ring is rebuilt
   * from the map's ids, not from the previous ring.
   */
  lemma TombstoneRevivedByLaterMerge(s: State, t: Long, m: map<Long, string>, lastModified: int, now: int)
    requires t in s.addresses && s.addresses[t] == "" && t !in s.ring
    requires t !in m && m != s.addresses && Fresh(lastModified, s.updatedAt)
    ensures var r := UpdateMembership(s, Some(m), lastModified, now);
            t in r.ring && r.addresses[t] == ""
  {
  }

  /**
   * calculateNodeIdx(String): hash the address and search for it; the long
   * overload is Ring.Search.  A member of a sorted array is found at its
   * own position.
   */
  method CalculateNodeIdx(md: Digester, nodes: seq<Long>, address: string) returns (idx: nat)
    ensures idx <= |nodes|
    ensures Sorted(nodes) ==> idx == FirstAtLeast(nodes, CalculateId(md, address))
    ensures Sorted(nodes) && CalculateId(md, address) in nodes ==> idx < |nodes| && nodes[idx] == CalculateId(md, address)
  {
    idx := Search(nodes, CalculateId(md, address));
  }

  /**
   * calculatePreferenceList: the replicas consecutive ring entries starting
   * at the key's lookup position, wrapping round the array.  An empty array
   * with a positive replica count divides by zero (None).
   */
  method CalculatePreferenceList(md: Digester, nodes: seq<Long>, replicas: nat, key: string) returns (r: Option<seq<Long>>)
    ensures r.None? <==> |nodes| == 0 && replicas > 0
    ensures r.Some? ==> |r.value| == replicas && Elements(r.value) <= Elements(nodes)
    ensures r.Some? && |nodes| > 0 ==> exists start: nat :: start <= |nodes| && WalksFrom(nodes, start, r.value)
    ensures r.Some? && |nodes| > 0 && Sorted(nodes) ==> WalksFrom(nodes, FirstAtLeast(nodes, CalculateId(md, key)), r.value)
    ensures r.Some? && Distinct(nodes) && replicas <= |nodes| ==> Distinct(r.value)
  {
    var idx := CalculateNodeIdx(md, nodes, key);
    if |nodes| == 0 {
      r := if replicas == 0 then Some([]) else None;
    } else {
      if Distinct(nodes) && replicas <= |nodes| {
        SuccessorsDistinct(nodes, idx, replicas);
      }
      r := Some(Successors(nodes, idx, replicas));
      assert WalksFrom(nodes, idx, r.value);
    }
  }

  /** The request parameters rebalanceOnAdd computes. */
  datatype RebalancePlan = RebalancePlan(
    predecessor: Long,           // asked for the keys this node now owns
    lowerBound: Long,            // those keys hash into (lowerBound, upperBound]
    upperBound: Long,            // this node's id
    deleteTargets: seq<Long>,    // nodes told to drop a range
    deleteUppers: seq<Long>      // the upper bound sent to each of them
  )

  /** The predecessor and lower-bound indices, each wrapped by adding the array length when negative. */
  function RebalanceIndices(n: nat, nodeIdx: nat, replicas: nat): (r: (int, int))
    ensures 0 < n && nodeIdx < n ==> r.0 == (nodeIdx - 1) % n && 0 <= r.0 < n
    ensures 0 < n && nodeIdx < n && replicas <= n ==> r.1 == (nodeIdx - replicas) % n && 0 <= r.1 < n
  {
    var prev := if nodeIdx - 1 < 0 then n - 1 else nodeIdx - 1;
    var lower := if nodeIdx - replicas < 0 then n - replicas + nodeIdx else nodeIdx - replicas;
    var r := (prev, lower);
    if 0 < n && nodeIdx < n then
      ModSmall(nodeIdx - 1, n);
      ModSmall(nodeIdx - replicas, n);
      r
    else r
  }

  /** The plan for a given position of this node; None where an index falls outside the array. */
  function PlanFor(nodes: seq<Long>, nodeIdx: nat, selfId: Long, replicas: nat): (p: Option<RebalancePlan>)
    ensures nodeIdx < |nodes| && replicas <= |nodes| ==> p.Some?
    ensures 0 < |nodes| && nodeIdx <= |nodes| ==>
              (p.Some? <==> replicas <= |nodes| + nodeIdx && (nodeIdx < |nodes| || replicas > 0))
    ensures p.Some? ==>
              var n := |nodes|;
              var prev := RebalanceIndices(n, nodeIdx, replicas).0;
              var lower := RebalanceIndices(n, nodeIdx, replicas).1;
              && 0 <= prev < n && 0 <= lower < n
              && p.value.predecessor == nodes[prev]
              && p.value.lowerBound == nodes[lower]
              && p.value.upperBound == selfId
              && |p.value.deleteTargets| == replicas && |p.value.deleteUppers| == replicas
              && (forall i :: 0 <= i < replicas ==> p.value.deleteTargets[i] == nodes[(nodeIdx + i + 1) % n])
              && (forall i :: 0 <= i < replicas ==> p.value.deleteUppers[i] == nodes[(lower + i + 1) % n])
  {
    var n := |nodes|;
    var (prev, lower) := RebalanceIndices(n, nodeIdx, replicas);
    if !(0 <= prev < n && 0 <= lower < n) then None
    else
      Some(RebalancePlan(nodes[prev], nodes[lower], selfId,
                         Successors(nodes, nodeIdx + 1, replicas),
                         Successors(nodes, lower + 1, replicas)))
  }

  /**
   * The plan expected of a node at position i: keys come from the ring
   * predecessor, the fetched range starts replicas positions back, and
   * delete request k goes to the (k+1)-th successor, bounded by the id k+1
   * positions on from the lower bound.
   */
  predicate PlannedAt(nodes: seq<Long>, i: nat, selfId: Long, replicas: nat, p: RebalancePlan)
    requires |nodes| > 0
  {
    var n := |nodes|;
    var lower := (i - replicas) % n;
    && p.predecessor == nodes[(i - 1) % n]
    && p.lowerBound == nodes[lower]
    && p.upperBound == selfId
    && |p.deleteTargets| == replicas && |p.deleteUppers| == replicas
    && (forall k :: 0 <= k < replicas ==> p.deleteTargets[k] == nodes[(i + k + 1) % n])
    && (forall k :: 0 <= k < replicas ==> p.deleteUppers[k] == nodes[(lower + k + 1) % n])
  }

  lemma PlanForInRing(nodes: seq<Long>, i: nat, selfId: Long, replicas: nat)
    requires i < |nodes| && replicas <= |nodes|
    ensures PlanFor(nodes, i, selfId, replicas).Some?
    ensures PlannedAt(nodes, i, selfId, replicas, PlanFor(nodes, i, selfId, replicas).value)
  {
    var n := |nodes|;
    var idx := RebalanceIndices(n, i, replicas);
    assert idx.0 == (i - 1) % n;
    assert idx.1 == (i - replicas) % n;
  }

  /**
   * rebalanceOnAdd, index arithmetic only: with this node on a sorted ring
   * and at most one lap of replicas, the plan is the one expected at this
   * node's own position.
   */
  method RebalanceOnAdd(s: State, nodes: seq<Long>) returns (plan: Option<RebalancePlan>)
    ensures Sorted(nodes) && s.id in nodes && s.replicas <= |nodes| ==>
              && FirstAtLeast(nodes, s.id) < |nodes| && nodes[FirstAtLeast(nodes, s.id)] == s.id
              && plan.Some?
              && PlannedAt(nodes, FirstAtLeast(nodes, s.id), s.id, s.replicas, plan.value)
    ensures Sorted(nodes) && ViewOf(nodes, s.ring) && s.id in s.ring && s.replicas <= |nodes| ==>
              && plan.Some?
              && plan.value.predecessor in s.ring && plan.value.lowerBound in s.ring
              && Elements(plan.value.deleteTargets) <= s.ring && Elements(plan.value.deleteUppers) <= s.ring
  {
    var nodeIdx := Search(nodes, s.id);
    plan := PlanFor(nodes, nodeIdx, s.id, s.replicas);
    if Sorted(nodes) && s.id in nodes && s.replicas <= |nodes| {
      PlanForInRing(nodes, nodeIdx, s.id, s.replicas);
    }
  }

  /** On a sorted ring the predecessor sits immediately before this node, or is the largest id when this node is the smallest. */
  lemma PredecessorIsRingPredecessor(nodes: seq<Long>, i: nat)
    requires Sorted(nodes) && i < |nodes|
    ensures var p := nodes[(i - 1) % |nodes|];
            (i > 0 ==> p < nodes[i] && forall x :: x in nodes && p < x ==> nodes[i] <= x)
            && (i == 0 ==> forall x :: x in nodes ==> x <= p)
  {
    var n := |nodes|;
    if i > 0 {
      assert (i - 1) % n == i - 1;
      forall x | x in nodes && nodes[i - 1] < x
        ensures nodes[i] <= x
      {
        var j :| 0 <= j < n && nodes[j] == x;
        assert j > i - 1;
      }
    } else {
      assert (i - 1) % n == n - 1;
    }
  }
}

=== FILE: coordinator.dfy ===
/**
 * Coordinator: the older front-end that places keys on a ring of servant
 * ids with 32-bit hashes and fans client requests out to up to three of
 * them.  Only its selection and request loops are modelled.
 */
module Coordinator {
  import opened Wrappers
  import opened HashId
  import opened Ring
  import opened Replication

  const ReplicaCap: nat := 3

  /** HashMap.get: the address of a servant id, or null (None) for an unknown id. */
  function Lookup(addresses: map<Int32, string>, id: Int32): Option<string>
  {
    if id in addresses then Some(addresses[id]) else None
  }

  /** list holds the addresses of the servants met walking the array from position start. */
  predicate ServesFrom(servants: seq<Int32>, addresses: map<Int32, string>, start: nat, list: seq<Option<string>>)
    requires |servants| > 0
  {
    forall k :: 0 <= k < |list| ==> list[k] == Lookup(addresses, servants[(start + k) % |servants|])
  }

  /**
   * calculateReplicaServers: binary search for the key's 32-bit hash, then
   * the addresses of min(3, n) consecutive servants from there, wrapping.
   * An empty servant array yields an empty list.
   */
  method CalculateReplicaServers(md: Digester, servants: seq<Int32>, addresses: map<Int32, string>, key: string)
    returns (r: seq<Option<string>>)
    ensures |r| == Min(ReplicaCap, |servants|)
    ensures |servants| > 0 ==> exists start: nat :: start <= |servants| && ServesFrom(servants, addresses, start, r)
    ensures |servants| > 0 && Sorted(servants) ==>
              ServesFrom(servants, addresses, FirstAtLeast(servants, CalculateId32(md, key)), r)
    ensures Elements(servants) <= addresses.Keys ==> forall k :: 0 <= k < |r| ==> r[k].Some?
  {
    var start := Search(servants, CalculateId32(md, key));
    var count := Min(ReplicaCap, |servants|);
    if |servants| == 0 {
      return [];
    }
    var ids := Successors(servants, start, count);
    r := seq(count, k requires 0 <= k < count => Lookup(addresses, ids[k]));
    assert ServesFrom(servants, addresses, start, r);
  }

  /**
   * handleGet, with the corrected failover chain: the replica servers are
   * asked in order from the first, up to the first that answers (asked);
   * a response with a null body answers 404 with a blank result, and a
   * chain in which every server fails answers 404 with no result.
   */
  method HandleGet(md: Digester, servants: seq<Int32>, addresses: map<Int32, string>, key: string, outcomes: seq<Outcome>)
    returns (r: Reply, asked: seq<Option<string>>, servers: seq<Option<string>>)
    requires |outcomes| == Min(ReplicaCap, |servants|)
    ensures |servers| == |outcomes| && asked <= servers
    ensures |servants| > 0 ==> exists start: nat :: start <= |servants| && ServesFrom(servants, addresses, start, servers)
    ensures r.Replied?
    ensures AllFailed(outcomes, 0, |outcomes|) ==> r == Replied(Ctx(Some(404), None)) && |asked| == |outcomes|
    ensures forall j: nat :: FirstResponse(outcomes, 0, j) ==> r == Replied(ReadReply(outcomes[j], true)) && |asked| == j + 1
    ensures forall j: nat :: FirstResponse(outcomes, 0, j) && outcomes[j].body.None? ==> r.ctx == Ctx(Some(404), Some(""))
    ensures |asked| <= |outcomes|
    ensures |servants| > 0 && Sorted(servants) ==>
              ServesFrom(servants, addresses, FirstAtLeast(servants, CalculateId32(md, key)), asked)
  {
    servers := CalculateReplicaServers(md, servants, addresses, key);
    r, asked := FailoverAsk(servers, outcomes, true);
  }

  /** handlePost: the write goes to every replica server in order; the status is the last answering one's. */
  method HandlePost(md: Digester, servants: seq<Int32>, addresses: map<Int32, string>, key: string, outcomes: seq<Outcome>)
    returns (ctx: Ctx, sent: seq<Option<string>>, servers: seq<Option<string>>)
    requires |outcomes| == Min(ReplicaCap, |servants|)
    ensures sent == servers
    ensures |servants| > 0 ==> exists start: nat :: start <= |servants| && ServesFrom(servants, addresses, start, servers)
    ensures |sent| == |outcomes|
    ensures |servants| > 0 && Sorted(servants) ==>
              ServesFrom(servants, addresses, FirstAtLeast(servants, CalculateId32(md, key)), sent)
    ensures AllFailed(outcomes, 0, |outcomes|) ==> ctx == Untouched
    ensures forall j: nat :: LastResponse(outcomes, |outcomes|, j) ==> ctx.status == Some(WriteStatus(outcomes[j]))
    ensures forall j: nat :: LastBody(outcomes, |outcomes|, j) ==> ctx.result == outcomes[j].body
  {
    servers := CalculateReplicaServers(md, servants, addresses, key);
    ctx, sent := FanOutPost(servers, outcomes);
  }

  /** handleDelete: the delete goes to every replica server in order; the status is the last answering one's code. */
  method HandleDelete(md: Digester, servants: seq<Int32>, addresses: map<Int32, string>, key: string, outcomes: seq<Outcome>)
    returns (ctx: Ctx, sent: seq<Option<string>>, servers: seq<Option<string>>)
    requires |outcomes| == Min(ReplicaCap, |servants|)
    ensures sent == servers
    ensures |servants| > 0 ==> exists start: nat :: start <= |servants| && ServesFrom(servants, addresses, start, servers)
    ensures |sent| == |outcomes| && ctx.result.None?
    ensures |servants| > 0 && Sorted(servants) ==>
              ServesFrom(servants, addresses, FirstAtLeast(servants, CalculateId32(md, key)), sent)
    ensures AllFailed(outcomes, 0, |outcomes|) ==> ctx == Untouched
    ensures forall j: nat :: LastResponse(outcomes, |outcomes|, j) ==> ctx.status == Some(outcomes[j].status)
  {
    servers := CalculateReplicaServers(md, servants, addresses, key);
    ctx, sent := FanOutDelete(servers, outcomes);
  }
}

=== FILE: hash_id.dfy ===
/**
 * The hash space: a node address or data key is digested (MD5 in the
 * source) and the leading digest bytes, read big-endian as a two's
 * complement number, become its position on the ring.  ClusterMember and
 * Node read 8 bytes (java.nio.ByteBuffer.getLong); Coordinator reads 4
 * (ByteBuffer.getInt).  The digest algorithm itself is a parameter.
 */
module HashId {

  const MinLong: int := -0x8000_0000_0000_0000
  const MaxLong: int := 0x7FFF_FFFF_FFFF_FFFF
  const MinInt: int := -0x8000_0000
  const MaxInt: int := 0x7FFF_FFFF

  const TwoTo32: int := 0x1_0000_0000
  const TwoTo64: int := 0x1_0000_0000_0000_0000

  /** Java's long and int, as ranges of the unbounded integers. */
  type Long = x: int | MinLong <= x <= MaxLong
  type Int32 = x: int | MinInt <= x <= MaxInt

  /** An octet, read as an unsigned value. */
  newtype Byte = x: int | 0 <= x < 256

  /** An MD5 digest is always 16 bytes long. */
  type Digest = d: seq<Byte> | |d| == 16 witness seq(16, _ => 0)

  /** The message digest over the UTF-8 bytes of a string; the algorithm is not modelled. */
  type Digester = string -> Digest

  function Pow256(k: nat): (r: nat)
    ensures r > 0
  {
    if k == 0 then 1 else 256 * Pow256(k - 1)
  }

  lemma Pow256Values()
    ensures Pow256(4) == TwoTo32
    ensures Pow256(8) == TwoTo64
  {
    assert Pow256(1) == 256;
    assert Pow256(2) == 0x1_0000;
    assert Pow256(3) == 0x100_0000;
    assert Pow256(4) == 0x1_0000_0000;
    assert Pow256(5) == 0x100_0000_0000;
    assert Pow256(6) == 0x1_0000_0000_0000;
    assert Pow256(7) == 0x100_0000_0000_0000;
  }

  /** The unsigned value of a byte string read most significant byte first. */
  function Unsigned(b: seq<Byte>): (u: nat)
    ensures u < Pow256(|b|)
  {
    if |b| == 0 then 0
    else
      var hi := Unsigned(b[..|b| - 1]);
      assert hi * 256 <= (Pow256(|b| - 1) - 1) * 256;
      hi * 256 + b[|b| - 1] as nat
  }

  /** The k-byte big-endian encoding of u: the inverse of Unsigned. */
  function Bytes(u: nat, k: nat): (b: seq<Byte>)
    requires u < Pow256(k)
    ensures |b| == k
  {
    if k == 0 then []
    else Bytes(u / 256, k - 1) + [(u % 256) as Byte]
  }

  /** Dropping the last byte of a k-byte value leaves a (k-1)-byte value. */
  lemma HighPartFits(u: nat, k: nat)
    requires k > 0 && u < Pow256(k)
    ensures u / 256 < Pow256(k - 1)
  {
    assert Pow256(k) == 256 * Pow256(k - 1);
  }

  /** The last byte of Bytes(u, k) is the low byte and the rest encode the high part. */
  lemma BytesSplit(u: nat, k: nat)
    requires k > 0 && u < Pow256(k)
    ensures u / 256 < Pow256(k - 1)
    ensures Bytes(u, k)[..k - 1] == Bytes(u / 256, k - 1)
    ensures Bytes(u, k)[k - 1] as nat == u % 256
  {
    HighPartFits(u, k);
    var a, c := Bytes(u / 256, k - 1), [(u % 256) as Byte];
    assert Bytes(u, k) == a + c;
    assert (a + c)[..|a|] == a;
    assert (a + c)[|a|] == c[0];
  }

  lemma {:induction false} UnsignedOfBytes(u: nat, k: nat)
    requires u < Pow256(k)
    ensures Unsigned(Bytes(u, k)) == u
  {
    if k > 0 {
      var b := Bytes(u, k);
      var hi, lo := u / 256, u % 256;
      BytesSplit(u, k);
      UnsignedOfBytes(hi, k - 1);
      assert Unsigned(b[..k - 1]) == hi;
      assert b[k - 1] as nat == lo;
      assert Unsigned(b) == hi * 256 + lo;
    }
  }

  lemma {:induction false} BytesOfUnsigned(b: seq<Byte>)
    ensures Bytes(Unsigned(b), |b|) == b
  {
    if |b| > 0 {
      var init := b[..|b| - 1];
      var u := Unsigned(b);
      assert u / 256 == Unsigned(init);
      assert (u % 256) as Byte == b[|b| - 1];
      BytesOfUnsigned(init);
    }
  }

  /** Unsigned distributes over concatenation: the prefix is the high part. */
  lemma {:induction false} UnsignedAppend(a: seq<Byte>, c: seq<Byte>)
    ensures Unsigned(a + c) == Unsigned(a) * Pow256(|c|) + Unsigned(c)
  {
    if |c| > 0 {
      var ac := a + c;
      var ci := c[..|c| - 1];
      assert ac[..|ac| - 1] == a + ci;
      UnsignedAppend(a, ci);
      var x, y, p := Unsigned(a), Unsigned(ci), Pow256(|ci|);
      var last := c[|c| - 1] as nat;
      assert Unsigned(ac) == Unsigned(a + ci) * 256 + last;
      assert Unsigned(c) == y * 256 + last;
      assert Pow256(|c|) == 256 * p;
      ShiftDistributes(x, p, y, last);
      
    } else {
      assert a + c == a;
    }
  }

  lemma ShiftDistributes(x: int, p: int, y: int, last: int)
    ensures (x * p + y) * 256 + last == x * (256 * p) + (y * 256 + last)
  {
  }

  /**
   * ByteBuffer.wrap(digest).getLong(): the first 8 bytes as a signed 64-bit
   * value.  Nothing is lost: putLong of the result gives those bytes back.
   */
  function LongId(d: Digest): (r: Long)
    ensures LongBytes(r) == d[..8]
  {
    Pow256Values();
    BytesOfUnsigned(d[..8]);
    var u := Unsigned(d[..8]);
    if u > MaxLong then u - TwoTo64 else u
  }

  /** ByteBuffer.wrap(digest).getInt(): the first 4 bytes as a signed 32-bit value. */
  function IntId(d: Digest): (r: Int32)
  {
    Pow256Values();
    var u := Unsigned(d[..4]);
    if u > MaxInt then u - TwoTo32 else u
  }

  /** ByteBuffer.putLong: the 8 big-endian two's complement bytes of x. */
  function LongBytes(x: Long): (b: seq<Byte>)
    ensures |b| == 8
  {
    Pow256Values();
    Bytes(if x < 0 then x + TwoTo64 else x, 8)
  }

  /** Reading back what putLong wrote gives the same long. */
  lemma LongIdOfLongBytes(x: Long, d: Digest)
    requires d[..8] == LongBytes(x)
    ensures LongId(d) == x
  {
    Pow256Values();
    UnsignedOfBytes(if x < 0 then x + TwoTo64 else x, 8);
  }

  /** The 32-bit id is the high half of the 64-bit id (floor division, as an arithmetic shift). */
  lemma IntIdIsHighHalf(d: Digest)
    ensures IntId(d) == LongId(d) / TwoTo32
  {
    Pow256Values();
    var hi, lo := d[..4], d[4..8];
    assert d[..8] == hi + lo;
    UnsignedAppend(hi, lo);
    var uh, ul := Unsigned(hi), Unsigned(lo);
    assert Unsigned(d[..8]) == uh * TwoTo32 + ul;
    if uh > MaxInt {
      assert LongId(d) == (uh - TwoTo32) * TwoTo32 + ul;
    } else {
      assert LongId(d) == uh * TwoTo32 + ul;
    }
  }

  /**
   * calculateID in ClusterMember and Node: an address or key to its 64-bit
   * ring position, which is exactly the first 8 digest bytes.
   */
  function CalculateId(md: Digester, key: string): (id: Long)
    ensures LongBytes(id) == md(key)[..8]
  {
    LongId(md(key))
  }

  /**
   * calculateID in Coordinator: an address or key to its 32-bit ring
   * position, the high half of the 64-bit one.
   */
  function CalculateId32(md: Digester, key: string): (id: Int32)
    ensures id == CalculateId(md, key) / TwoTo32
  {
    IntIdIsHighHalf(md(key));
    IntId(md(key))
  }
}

=== FILE: membership.dfy ===
/**
 * The membership state both ClusterMember and Node keep: the ring (a set of
 * node ids), the id-to-address map, the timestamp of the last change, and
 * the replication factor derived from the ring size.
 */
module Membership {
  import opened Wrappers
  import opened HashId

  datatype State = State(
    id: Long,                      // this node's ring id
    address: string,               // this node's "host:port"
    ring: set<Long>,               // ids on the ring
    addresses: map<Long, string>,  // id -> "host:port"; "" marks a node that left
    updatedAt: int,                // nodesUpdatedTime, epoch milliseconds
    replicas: nat                  // length of every preference list
  )

  /** How one gossip exchange with a peer ended. */
  datatype Exchange =
    | Unreachable   // a transport failure on the push or the pull
    | Answered(lastModified: Option<int>, membership: Option<map<Long, string>>)
        // the pull's Last-Modified header (None: absent) and its decoded body (None: malformed)

  /** The freshness gate: a peer's view wins only if strictly newer, or 0 (forced). */
  predicate Fresh(lastModified: int, updatedAt: int)
  {
    lastModified > updatedAt || lastModified == 0
  }

  /** The constructor's loop putting each seed under its id; a later seed with the same id wins. */
  function SeedMap(md: Digester, seeds: seq<string>): (m: map<Long, string>)
    ensures m.Keys == set s | s in seeds :: CalculateId(md, s)
    ensures forall k :: k in m ==> m[k] in seeds && CalculateId(md, m[k]) == k
  {
    if |seeds| == 0 then map[]
    else
      var init, last := seeds[..|seeds| - 1], seeds[|seeds| - 1];
      assert seeds == init + [last];
      assert (set s | s in seeds :: CalculateId(md, s)) == (set s | s in init :: CalculateId(md, s)) + {CalculateId(md, last)};
      SeedMap(md, init)[CalculateId(md, last) := last]
  }

  /** A seed is kept under its id unless a later, different seed collides with it. */
  lemma {:induction false} SeedMapLastWins(md: Digester, seeds: seq<string>, i: nat)
    requires i < |seeds|
    requires forall j :: i < j < |seeds| && seeds[j] != seeds[i] ==> CalculateId(md, seeds[j]) != CalculateId(md, seeds[i])
    ensures SeedMap(md, seeds)[CalculateId(md, seeds[i])] == seeds[i]
  {
    var init, last := seeds[..|seeds| - 1], seeds[|seeds| - 1];
    assert SeedMap(md, seeds) == SeedMap(md, init)[CalculateId(md, last) := last];
    if i < |seeds| - 1 && seeds[i] != last {
      assert init[i] == seeds[i];
      SeedMapLastWins(md, init, i);
    }
  }

  /**
   * The constructor: the ring holds the seeds' ids and this node's own id,
   * the map sends each of them to its address, and the replication factor
   * is the smaller of cap and the length of the id list (seeds plus self).
   */
  function Seed(md: Digester, address: string, seeds: seq<string>, now: int, cap: nat): (s: State)
    ensures s.id == CalculateId(md, address) && s.address == address
    ensures s.ring == (set x | x in seeds :: CalculateId(md, x)) + {s.id}
    ensures s.addresses.Keys == s.ring
    ensures s.addresses[s.id] == address
    ensures forall k :: k in s.addresses ==> CalculateId(md, s.addresses[k]) == k
    ensures s.updatedAt == now
    ensures s.replicas == Min(cap, |seeds| + 1)
  {
    var id := CalculateId(md, address);
    var m := SeedMap(md, seeds);
    State(id, address, m.Keys + {id}, m[id := address], now, Min(cap, |seeds| + 1))
  }
}

=== FILE: node.dfy ===
/**
 * Node: the peer with replication factor at most 3, a membership merge
 * that replaces the whole map, a ring-join handler, and the client
 * handlers that fan writes out over the preference list and fail reads
 * over along it.
 */
module Node {
  import opened Wrappers
  import opened HashId
  import opened Ring
  import opened Membership
  import opened Replication

  const ReplicaCap: nat := 3

  /** The ring is exactly the set of ids the map knows. */
  predicate Consistent(s: State)
  {
    s.ring == s.addresses.Keys
  }

  /** The constructor, with a replication factor of at most 3. */
  function Create(md: Digester, address: string, seeds: seq<string>, now: int): (s: State)
    ensures Consistent(s)
    ensures s.id in s.ring && s.addresses[s.id] == address
    ensures 1 <= s.replicas <= ReplicaCap && s.replicas <= |seeds| + 1
    ensures |seeds| >= 2 ==> s.replicas == ReplicaCap
  {
    Seed(md, address, seeds, now, ReplicaCap)
  }

  /**
   * updateMembership: a fresh received map that parses replaces the local
   * map outright, the ring becomes its key set (tombstoned ids included),
   * and the timestamp moves to now; anything else leaves the state alone.
   */
  function UpdateMembership(s: State, received: Option<map<Long, string>>, lastModified: int, now: int): (r: State)
    ensures !Fresh(lastModified, s.updatedAt) || received.None? ==> r == s
    ensures Fresh(lastModified, s.updatedAt) && received.Some? ==>
              r.addresses == received.value && r.ring == received.value.Keys && r.updatedAt == now
    ensures r.id == s.id && r.address == s.address && r.replicas == s.replicas
    ensures Consistent(s) ==> Consistent(r)
  {
    if Fresh(lastModified, s.updatedAt) && received.Some? then
      s.(ring := received.value.Keys, addresses := received.value, updatedAt := now)
    else s
  }

  /** deleteNode: the id leaves ring and map; unlike ClusterMember, the timestamp is not bumped. */
  function DeleteNode(s: State, nodeId: Long): (r: State)
    ensures nodeId !in r.ring && nodeId !in r.addresses
    ensures r.ring == s.ring - {nodeId}
    ensures forall k :: k != nodeId ==> (k in r.addresses <==> k in s.addresses)
    ensures forall k :: k in r.addresses ==> r.addresses[k] == s.addresses[k]
    ensures r.updatedAt == s.updatedAt && r.replicas == s.replicas
    ensures r.id == s.id && r.address == s.address
    ensures Consistent(s) ==> Consistent(r)
  {
    s.(ring := s.ring - {nodeId}, addresses := s.addresses - {nodeId})
  }

  /**
   * One run of the gossip timer task: an unreachable peer is evicted (and
   * the replication factor is left as it was); otherwise a pulled view
   * with a Last-Modified header goes through the merge, and the
   * replication factor is recomputed from the ring size.
   */
  function GossipTick(s: State, target: Long, exchange: Exchange, now: int): (r: State)
    ensures exchange.Unreachable? ==>
              && r.ring == s.ring - {target} && target !in r.addresses
              && r.addresses == s.addresses - {target}
              && r.updatedAt == s.updatedAt && r.replicas == s.replicas
    ensures exchange.Answered? ==> r.replicas == Min(ReplicaCap, |r.ring|) && r.replicas <= |r.ring|
    ensures exchange.Answered? && exchange.lastModified.None? ==>
              r.ring == s.ring && r.addresses == s.addresses && r.updatedAt == s.updatedAt
    ensures exchange.Answered? && exchange.lastModified.Some? ==>
              var u := UpdateMembership(s, exchange.membership, exchange.lastModified.value, now);
              r.ring == u.ring && r.addresses == u.addresses && r.updatedAt == u.updatedAt
    ensures r.id == s.id && r.address == s.address
    ensures Consistent(s) ==> Consistent(r)
  {
    match exchange
    case Unreachable => DeleteNode(s, target)
    case Answered(lastModified, membership) =>
      var merged := if lastModified.Some? then UpdateMembership(s, membership, lastModified.value, now) else s;
      merged.(replicas := Min(ReplicaCap, |merged.ring|))
  }

  /** Merging the same map twice gives the same ring and map as merging it once. */
  lemma MergeTwiceSameView(s: State, m: map<Long, string>, lm1: int, now1: int, lm2: int, now2: int)
    requires Fresh(lm1, s.updatedAt)
    ensures var r1 := UpdateMembership(s, Some(m), lm1, now1);
            var r2 := UpdateMembership(r1, Some(m), lm2, now2);
            r2.ring == r1.ring && r2.addresses == r1.addresses
  {
  }

  /** What the ring-join handler got back from the bootstrap peer's /nodes. */
  datatype Fetch = FetchFailed | Fetched(membership: Option<map<Long, string>>)

  /**
   * handleRingPost: the bootstrap peer's map is merged with the sentinel
   * 0, which always passes the freshness gate, and this node then puts
   * itself back on the ring under its own address.  A failed fetch throws
   * out of the handler before anything changes.
   */
  function RingJoin(s: State, fetched: Fetch, now: int): (r: State)
    ensures fetched.FetchFailed? ==> r == s
    ensures fetched.Fetched? ==> s.id in r.ring && s.id in r.addresses && r.addresses[s.id] == s.address
    ensures fetched.Fetched? && fetched.membership.Some? ==>
              var m := fetched.membership.value;
              && r.ring == m.Keys + {s.id}
              && (forall k :: k in m && k != s.id ==> k in r.addresses && r.addresses[k] == m[k])
              && r.updatedAt == now
    ensures fetched.Fetched? && fetched.membership.Some? ==>
              r.addresses == fetched.membership.value[s.id := s.address]
    ensures fetched == Fetched(None) ==> r.ring == s.ring + {s.id} && r.updatedAt == s.updatedAt
    ensures fetched == Fetched(None) ==> r.addresses == s.addresses[s.id := s.address]
    ensures r.id == s.id && r.address == s.address && r.replicas == s.replicas
    ensures Consistent(s) ==> Consistent(r)
  {
    match fetched
    case FetchFailed => s
    case Fetched(membership) =>
      var merged := UpdateMembership(s, membership, 0, now);
      merged.(ring := merged.ring + {s.id}, addresses := merged.addresses[s.id := s.address])
  }

  /** On a sorted array, a hash above the last entry is above every entry. */
  lemma AboveLast(nodes: seq<Long>, hash: int)
    requires Sorted(nodes) && |nodes| > 0 && hash > nodes[|nodes| - 1]
    ensures FirstAtLeast(nodes, hash) == |nodes|
  {
    forall j | 0 <= j < |nodes| - 1
      ensures nodes[j] < hash
    {
      assert nodes[j] < nodes[|nodes| - 1];
    }
    FirstAtLeastUnique(nodes, hash, |nodes|);
  }

  /**
   * calculatePreferenceList as written.  The binary search only runs when
   * the key's hash exceeds the last array entry; on a sorted array it then
   * ends past the end, which wraps to 0.  So the list is always the first
   * replicas entries, whatever the key.  An empty array throws (None).
   */
  method CalculatePreferenceList(md: Digester, nodes: seq<Long>, replicas: nat, key: string) returns (r: Option<seq<Long>>)
    ensures r.None? <==> |nodes| == 0
    ensures r.Some? ==> |r.value| == replicas && Elements(r.value) <= Elements(nodes)
    ensures r.Some? ==> exists start: nat :: start <= |nodes| && WalksFrom(nodes, start, r.value)
    ensures r.Some? && Sorted(nodes) ==> WalksFrom(nodes, 0, r.value)
    ensures r.Some? && CalculateId(md, key) <= nodes[|nodes| - 1] ==> WalksFrom(nodes, 0, r.value)
    ensures r.Some? && Distinct(nodes) && replicas <= |nodes| ==> Distinct(r.value)
  {
    if |nodes| == 0 {
      return None;
    }
    var hash := CalculateId(md, key);
    var start := 0;
    if hash > nodes[|nodes| - 1] {
      start := Search(nodes, hash);
    }
    if Sorted(nodes) {
      WrittenStart(nodes, hash, start, replicas);
    }
    if Distinct(nodes) && replicas <= |nodes| {
      SuccessorsDistinct(nodes, start, replicas);
    }
    r := Some(Successors(nodes, start, replicas));
    assert WalksFrom(nodes, start, r.value);
  }

  /**
   * Searching only when the hash is above the largest id, and starting at 0
   * otherwise, always walks the ring from its first entry.
   */
  lemma WrittenStart(nodes: seq<Long>, hash: int, start: nat, count: nat)
    requires Sorted(nodes) && |nodes| > 0
    requires start == if hash > nodes[|nodes| - 1] then FirstAtLeast(nodes, hash) else 0
    ensures WalksFrom(nodes, 0, Successors(nodes, start, count))
  {
    if hash > nodes[|nodes| - 1] {
      AboveLast(nodes, hash);
      SuccessorsWrap(nodes, 0, count);
    }
  }

  /**
   * The preference list with the guard the other way round: search when the
   * hash is at most the largest id, wrap to 0 otherwise.  On a sorted array
   * it starts at the key's owner.
   */
  method CorrectedPreferenceList(md: Digester, nodes: seq<Long>, replicas: nat, key: string) returns (r: Option<seq<Long>>)
    ensures r.None? <==> |nodes| == 0
    ensures r.Some? ==> |r.value| == replicas && Elements(r.value) <= Elements(nodes)
    ensures r.Some? ==> exists start: nat :: start <= |nodes| && WalksFrom(nodes, start, r.value)
    ensures r.Some? && Sorted(nodes) ==> WalksFrom(nodes, FirstAtLeast(nodes, CalculateId(md, key)), r.value)
    ensures r.Some? && CalculateId(md, key) > nodes[|nodes| - 1] ==> WalksFrom(nodes, 0, r.value)
    ensures r.Some? && Distinct(nodes) && replicas <= |nodes| ==> Distinct(r.value)
  {
    if |nodes| == 0 {
      return None;
    }
    var hash := CalculateId(md, key);
    var start := 0;
    if hash <= nodes[|nodes| - 1] {
      start := Search(nodes, hash);
    }
    if Sorted(nodes) {
      OwnerStart(nodes, hash, start, replicas);
    }
    if Distinct(nodes) && replicas <= |nodes| {
      SuccessorsDistinct(nodes, start, replicas);
    }
    r := Some(Successors(nodes, start, replicas));
    assert WalksFrom(nodes, start, r.value);
  }

  /** The list from position 0 is also the walk from position n. */
  lemma WalkFromEnd(nodes: seq<Long>, count: nat)
    requires |nodes| > 0
    ensures WalksFrom(nodes, |nodes|, Successors(nodes, 0, count))
  {
    var n, succ := |nodes|, Successors(nodes, 0, count);
    forall k | 0 <= k < count
      ensures succ[k] == nodes[(n + k) % n]
    {
      WrapIndex(n, k);
    }
  }

  /**
   * Starting at the search result when the hash is at most the largest id,
   * and at 0 otherwise, walks the ring from the key's owner.
   */
  lemma OwnerStart(nodes: seq<Long>, hash: int, start: nat, count: nat)
    requires Sorted(nodes) && |nodes| > 0
    requires start == if hash <= nodes[|nodes| - 1] then FirstAtLeast(nodes, hash) else 0
    ensures WalksFrom(nodes, FirstAtLeast(nodes, hash), Successors(nodes, start, count))
  {
    if hash > nodes[|nodes| - 1] {
      AboveLast(nodes, hash);
      WalkFromEnd(nodes, count);
    }
  }

  /**
   * The written guard misplaces keys: on a sorted ring, a key hashing just
   * above the smallest id belongs to the second node, yet the written list
   * starts at the first.
   */
  lemma WrittenGuardMissesOwner(nodes: seq<Long>, hash: Long)
    requires Sorted(nodes) && |nodes| >= 2 && nodes[0] < hash <= nodes[1]
    ensures FirstAtLeast(nodes, hash) == 1
    ensures Successors(nodes, 0, 1) == [nodes[0]]
    ensures Successors(nodes, FirstAtLeast(nodes, hash), 1) == [nodes[1]]
    ensures nodes[0] != nodes[1]
  {
    FirstAtLeastUnique(nodes, hash, 1);
    var a, b := Successors(nodes, 0, 1), Successors(nodes, 1, 1);
    assert a[0] == nodes[0 % |nodes|];
    assert b[0] == nodes[1 % |nodes|];
  }

  /** Starting the chain on the sublist from 1 is starting it at position 1. */
  lemma {:induction false} FailoverGetSublist(outcomes: seq<Outcome>, step: nat, blankOnMissing: bool)
    requires |outcomes| > 0
    ensures FailoverGet(outcomes[1..], step, blankOnMissing) == FailoverGet(outcomes, step + 1, blankOnMissing)
    decreases |outcomes| - step
  {
    if step + 1 < |outcomes| && outcomes[step + 1].TransportFailure? {
      FailoverGetSublist(outcomes, step + 1, blankOnMissing);
    }
  }

  /** Skipping the first entry, the chain contacts entries 1 up to its first response, or all of them. */
  lemma AskedAfterFirst(outcomes: seq<Outcome>)
    requires |outcomes| > 0
    ensures forall j: nat :: FirstResponse(outcomes, 1, j) ==> AskedUntil(outcomes[1..], 0) == j
    ensures AllFailed(outcomes, 1, |outcomes|) ==> AskedUntil(outcomes[1..], 0) == |outcomes| - 1
  {
    var tail := outcomes[1..];
    forall j: nat | FirstResponse(outcomes, 1, j)
      ensures AskedUntil(tail, 0) == j
    {
      assert FirstResponse(tail, 0, j - 1);
    }
    if AllFailed(outcomes, 1, |outcomes|) {
      assert AllFailed(tail, 0, |tail|);
    }
  }

  /** A prefix of the list minus its first entry walks the ring from one past where the list starts. */
  lemma AskedOnRing(nodes: seq<Long>, list: seq<Long>, owner: nat, asked: seq<Long>)
    requires |nodes| > 0 && WalksFrom(nodes, owner, list)
    requires |list| > 0 && asked <= list[1..]
    ensures WalksFrom(nodes, owner + 1, asked)
  {
    forall k | 0 <= k < |asked|
      ensures asked[k] == nodes[(owner + 1 + k) % |nodes|]
    {
      assert asked[k] == list[k + 1];
    }
  }

  /**
   * The read half of handleClientGet once the preference list is known:
   * the chain runs over the list minus its first entry and stops at the
   * first entry that answers; asked is what it contacted.  hash is the
   * key's ring position.
   */
  method ReadFromRest(nodes: seq<Long>, hash: int, pref: seq<Long>, outcomes: seq<Outcome>)
    returns (r: Reply, asked: seq<Long>)
    requires |nodes| > 0 && |pref| > 0 && |outcomes| == |pref| && Elements(pref) <= Elements(nodes)
    requires Sorted(nodes) ==> WalksFrom(nodes, FirstAtLeast(nodes, hash), pref)
    ensures r == FailoverGet(outcomes, 1, false)
    ensures asked <= pref[1..]
    ensures AllFailed(outcomes, 1, |outcomes|) ==> r == Replied(Ctx(Some(404), None)) && |asked| == |pref| - 1
    ensures forall j: nat :: FirstResponse(outcomes, 1, j) ==> r == Replied(ReadReply(outcomes[j], false)) && |asked| == j
    ensures Elements(asked) <= Elements(nodes)
    ensures Sorted(nodes) ==> WalksFrom(nodes, FirstAtLeast(nodes, hash) + 1, asked)
  {
    r := FailoverGet(outcomes[1..], 0, false);
    FailoverGetSublist(outcomes, 0, false);
    AskedAfterFirst(outcomes);
    asked := pref[1..][..AskedUntil(outcomes[1..], 0)];
    if Sorted(nodes) {
      AskedOnRing(nodes, pref, FirstAtLeast(nodes, hash), asked);
    }
  }

  /**
   * handleClientGet, with the corrected preference list and failover
   * chain: a local hit answers 200 with the stored value; otherwise the
   * chain runs over the preference list (pref) minus its first entry (the
   * first entry is never asked) up to the first entry that answers
   * (asked), and answers 404 once every remaining entry has failed.  A
   * replication factor of 0 throws (subList(1, 0)), as does an empty ring.
   * outcomes[i] is what the i-th preference-list entry would answer.
   */
  method ClientGet(md: Digester, s: State, nodes: seq<Long>, key: string, local: Option<string>, outcomes: seq<Outcome>)
    returns (r: Reply, asked: seq<Long>, pref: seq<Long>)
    requires |outcomes| == s.replicas
    ensures local.Some? ==> r == Replied(Ctx(Some(200), local)) && asked == []
    ensures local.None? && |nodes| > 0 ==>
              |pref| == s.replicas && exists start: nat :: start <= |nodes| && WalksFrom(nodes, start, pref)
    ensures |pref| > 0 ==> asked <= pref[1..]
    ensures local.None? ==> (r.Threw? <==> |nodes| == 0 || s.replicas == 0)
    ensures local.None? && |nodes| > 0 && s.replicas > 0 && AllFailed(outcomes, 1, |outcomes|) ==>
              r == Replied(Ctx(Some(404), None)) && |asked| == s.replicas - 1
    ensures forall j: nat :: local.None? && |nodes| > 0 && FirstResponse(outcomes, 1, j) ==>
              r == Replied(ReadReply(outcomes[j], false)) && |asked| == j
    ensures local.None? && |nodes| > 0 && Sorted(nodes) ==> WalksFrom(nodes, FirstAtLeast(nodes, CalculateId(md, key)), pref)
    ensures |nodes| > 0 && Sorted(nodes) ==> WalksFrom(nodes, FirstAtLeast(nodes, CalculateId(md, key)) + 1, asked)
    ensures ViewOf(nodes, s.ring) ==> Elements(asked) <= s.ring
  {
    if local.Some? {
      return Replied(Ctx(Some(200), local)), [], [];
    }
    var list := CorrectedPreferenceList(md, nodes, s.replicas, key);
    if list.None? {
      return Threw, [], [];
    }
    pref := list.value;
    if |pref| == 0 {
      // Java's subList(1, 0) throws as well
      return Threw, [], pref;
    }
    r, asked := ReadFromRest(nodes, CalculateId(md, key), pref, outcomes);
  }

  /**
   * handleClientPost, with the corrected preference list: the write goes
   * to every preference-list entry in order, starting at the key's owner
   * on a sorted array; the status is the last answering replica's.
   */
  method ClientPost(md: Digester, s: State, nodes: seq<Long>, key: string, outcomes: seq<Outcome>)
    returns (r: Reply, sent: seq<Long>)
    requires |outcomes| == s.replicas
    ensures |nodes| == 0 ==> r.Threw? && sent == []
    ensures |nodes| > 0 ==> r.Replied? && |sent| == s.replicas
    ensures |nodes| > 0 ==> exists start: nat :: start <= |nodes| && WalksFrom(nodes, start, sent)
    ensures |nodes| > 0 && Sorted(nodes) ==> WalksFrom(nodes, FirstAtLeast(nodes, CalculateId(md, key)), sent)
    ensures |nodes| > 0 && AllFailed(outcomes, 0, |outcomes|) ==> r == Replied(Untouched)
    ensures forall j: nat :: |nodes| > 0 && LastResponse(outcomes, |outcomes|, j) ==>
              r.Replied? && r.ctx.status == Some(WriteStatus(outcomes[j]))
    ensures forall j: nat :: |nodes| > 0 && LastBody(outcomes, |outcomes|, j) ==>
              r.Replied? && r.ctx.result == outcomes[j].body
    ensures |nodes| > 0 && (forall i :: 0 <= i < |outcomes| ==> outcomes[i].TransportFailure? || outcomes[i].body.None?) ==>
              r.Replied? && r.ctx.result.None?
    ensures ViewOf(nodes, s.ring) ==> Elements(sent) <= s.ring
  {
    var pref := CorrectedPreferenceList(md, nodes, s.replicas, key);
    if pref.None? {
      return Threw, [];
    }
    var ctx;
    ctx, sent := FanOutPost(pref.value, outcomes);
    r := Replied(ctx);
  }

  /**
   * handleClientDelete, with the corrected preference list: the delete
   * goes to every preference-list entry in order; the status is the last
   * answering replica's status code.
   */
  method ClientDelete(md: Digester, s: State, nodes: seq<Long>, key: string, outcomes: seq<Outcome>)
    returns (r: Reply, sent: seq<Long>)
    requires |outcomes| == s.replicas
    ensures |nodes| == 0 ==> r.Threw? && sent == []
    ensures |nodes| > 0 ==> r.Replied? && |sent| == s.replicas && r.ctx.result.None?
    ensures |nodes| > 0 ==> exists start: nat :: start <= |nodes| && WalksFrom(nodes, start, sent)
    ensures |nodes| > 0 && Sorted(nodes) ==> WalksFrom(nodes, FirstAtLeast(nodes, CalculateId(md, key)), sent)
    ensures |nodes| > 0 && AllFailed(outcomes, 0, |outcomes|) ==> r == Replied(Untouched)
    ensures forall j: nat :: |nodes| > 0 && LastResponse(outcomes, |outcomes|, j) ==>
              r.Replied? && r.ctx.status == Some(outcomes[j].status)
    ensures ViewOf(nodes, s.ring) ==> Elements(sent) <= s.ring
  {
    var pref := CorrectedPreferenceList(md, nodes, s.replicas, key);
    if pref.None? {
      return Threw, [];
    }
    var ctx;
    ctx, sent := FanOutDelete(pref.value, outcomes);
    r := Replied(ctx);
  }
}

=== FILE: replication.dfy ===
/**
 * Replica fan-out and read failover, shared by Node's client handlers and
 * Coordinator's handlers.  Each remote call is replaced by its outcome:
 * outcomes[i] is what calling the i-th target would produce.
 */
module Replication {
  import opened Wrappers

  /** A remote call's outcome: an HTTP response, whose body is None where the client hands back null, or a transport failure. */
  datatype Outcome = Response(status: int, body: Option<string>) | TransportFailure

  /** The handler's reply as built so far: status and result as last set (None: never set). */
  datatype Ctx = Ctx(status: Option<int>, result: Option<string>)

  /** How a handler ended: with the reply it built, or by throwing. */
  datatype Reply = Replied(ctx: Ctx) | Threw

  const Untouched: Ctx := Ctx(None, None)

  /** Every call in [from, to) failed at the transport level. */
  predicate AllFailed(outcomes: seq<Outcome>, from: nat, to: nat)
    requires to <= |outcomes|
  {
    forall i :: from <= i < to ==> outcomes[i].TransportFailure?
  }

  /** outcomes[j] is the first response at or after position from. */
  predicate FirstResponse(outcomes: seq<Outcome>, from: nat, j: nat)
  {
    from <= j < |outcomes| && outcomes[j].Response? && AllFailed(outcomes, from, j)
  }

  /** outcomes[j] is the last response among the first k calls. */
  predicate LastResponse(outcomes: seq<Outcome>, k: nat, j: nat)
    requires k <= |outcomes|
  {
    j < k && outcomes[j].Response? && AllFailed(outcomes, j + 1, k)
  }

  /** outcomes[j] is the last response with a (non-null) body among the first k calls. */
  predicate LastBody(outcomes: seq<Outcome>, k: nat, j: nat)
    requires k <= |outcomes|
  {
    j < k && outcomes[j].Response? && outcomes[j].body.Some?
    && forall i :: j < i < k ==> outcomes[i].TransportFailure? || outcomes[i].body.None?
  }

  /** What a read reports for the response that ends the chain; the remote status code is not consulted. */
  function ReadReply(response: Outcome, blankOnMissing: bool): Ctx
    requires response.Response?
  {
    match response.body
    case Some(value) => Ctx(Some(200), Some(value))
    case None => Ctx(Some(404), if blankOnMissing then Some("") else None)
  }

  /** The remote status code never reaches the reply: only the body decides it. */
  lemma ReadReplyIgnoresStatus(a: int, c: int, body: Option<string>, blankOnMissing: bool)
    ensures ReadReply(Response(a, body), blankOnMissing) == ReadReply(Response(c, body), blankOnMissing)
    ensures ReadReply(Response(a, body), blankOnMissing).status != Some(a) || a == 200 || a == 404
  {
  }

  /**
   * How many targets the chain contacts from position step on: up to and
   * including the first that answers, or all remaining ones when every one
   * fails.
   */
  function AskedUntil(outcomes: seq<Outcome>, step: nat): (k: nat)
    requires step <= |outcomes|
    decreases |outcomes| - step
    ensures step <= k <= |outcomes|
    ensures forall j: nat :: FirstResponse(outcomes, step, j) ==> k == j + 1
    ensures AllFailed(outcomes, step, |outcomes|) ==> k == |outcomes|
  {
    if step == |outcomes| then step
    else
      match outcomes[step]
      case Response(_, _) =>
        assert forall j: nat :: step < j <= |outcomes| && AllFailed(outcomes, step, j) ==> outcomes[step].TransportFailure?;
        step + 1
      case TransportFailure =>
        assert forall j: nat :: FirstResponse(outcomes, step, j) ==> FirstResponse(outcomes, step + 1, j);
        AskedUntil(outcomes, step + 1)
  }

  /**
   * The corrected chain over a list of targets, also returning the targets
   * it contacted: a prefix of the list that ends at the first one that
   * answered, or the whole list when every one failed.
   */
  method FailoverAsk<T>(targets: seq<T>, outcomes: seq<Outcome>, blankOnMissing: bool) returns (r: Reply, asked: seq<T>)
    requires |outcomes| == |targets|
    ensures r == FailoverGet(outcomes, 0, blankOnMissing)
    ensures asked <= targets
    ensures forall k :: 0 <= k < |asked| ==> asked[k] == targets[k]
    ensures AllFailed(outcomes, 0, |outcomes|) ==> |asked| == |targets|
    ensures forall j: nat :: FirstResponse(outcomes, 0, j) ==> |asked| == j + 1
  {
    r := FailoverGet(outcomes, 0, blankOnMissing);
    asked := targets[..AskedUntil(outcomes, 0)];
  }

  /**
   * recursiveGet as written: ask targets from position step on; a
   * response of any kind ends the chain, a transport failure moves on.
   * The source guards the recursion with step >= size, which cannot hold
   * after nodes.get(step) succeeded, so running off the end throws
   * (IndexOutOfBoundsException) instead of answering 404.
   */
  function RecursiveGet(outcomes: seq<Outcome>, step: nat, blankOnMissing: bool): (r: Reply)
    decreases |outcomes| - step
    ensures r.Threw? <==> step >= |outcomes| || AllFailed(outcomes, step, |outcomes|)
    ensures forall j: nat :: FirstResponse(outcomes, step, j) ==> r == Replied(ReadReply(outcomes[j], blankOnMissing))
    ensures r.Replied? ==> exists j: nat :: FirstResponse(outcomes, step, j) && r == Replied(ReadReply(outcomes[j], blankOnMissing))
  {
    if step >= |outcomes| then Threw
    else
      match outcomes[step]
      case Response(_, _) => Replied(ReadReply(outcomes[step], blankOnMissing))
      case TransportFailure => RecursiveGet(outcomes, step + 1, blankOnMissing)
  }

  /** When every replica is unreachable the chain does not answer 404: the handler throws. */
  lemma RecursiveGetExhausted(outcomes: seq<Outcome>, blankOnMissing: bool)
    requires AllFailed(outcomes, 0, |outcomes|)
    ensures RecursiveGet(outcomes, 0, blankOnMissing) == Threw
    ensures RecursiveGet(outcomes, 0, blankOnMissing) != Replied(Ctx(Some(404), None))
  {
  }

  /**
   * The failover chain as evidently intended: identical while some target
   * answers, and a 404 once every target has failed.
   */
  function FailoverGet(outcomes: seq<Outcome>, step: nat, blankOnMissing: bool): (r: Reply)
    decreases |outcomes| - step
    ensures r.Replied?
    ensures AllFailed(outcomes, step, |outcomes|) ==> r == Replied(Ctx(Some(404), None))
    ensures forall j: nat :: FirstResponse(outcomes, step, j) ==> r == Replied(ReadReply(outcomes[j], blankOnMissing))
  {
    if step >= |outcomes| then Replied(Ctx(Some(404), None))
    else
      match outcomes[step]
      case Response(_, _) => Replied(ReadReply(outcomes[step], blankOnMissing))
      case TransportFailure => FailoverGet(outcomes, step + 1, blankOnMissing)
  }

  /** The corrected chain agrees with the written one wherever the written one answers. */
  lemma {:induction false} FailoverGetRefines(outcomes: seq<Outcome>, step: nat, blankOnMissing: bool)
    ensures RecursiveGet(outcomes, step, blankOnMissing).Replied? ==>
              FailoverGet(outcomes, step, blankOnMissing) == RecursiveGet(outcomes, step, blankOnMissing)
    decreases |outcomes| - step
  {
    if step < |outcomes| && outcomes[step].TransportFailure? {
      FailoverGetRefines(outcomes, step + 1, blankOnMissing);
    }
  }

  /** The status a write response sets: 404 for a null body, else 200 (the remote status is ignored). */
  function WriteStatus(response: Outcome): int
    requires response.Response?
  {
    if response.body.None? then 404 else 200
  }

  /** How the last response among the first k calls relates to the last among the first k - 1. */
  lemma LastResponseStep(outcomes: seq<Outcome>, k: nat)
    requires 0 < k <= |outcomes|
    ensures outcomes[k - 1].Response? ==> forall j: nat :: LastResponse(outcomes, k, j) <==> j == k - 1
    ensures outcomes[k - 1].TransportFailure? ==>
              forall j: nat :: LastResponse(outcomes, k, j) <==> LastResponse(outcomes, k - 1, j)
    ensures outcomes[k - 1].Response? && outcomes[k - 1].body.Some? ==>
              forall j: nat :: LastBody(outcomes, k, j) <==> j == k - 1
    ensures outcomes[k - 1].TransportFailure? || outcomes[k - 1].body.None? ==>
              forall j: nat :: LastBody(outcomes, k, j) <==> LastBody(outcomes, k - 1, j)
  {
  }

  /**
   * The write loop of handleClientPost and handlePost: every target is sent
   * the write, in order, whatever happened to the others; a transport
   * failure is skipped.  The reply's status comes from the last target that
   * answered and its result from the last answer that had a body.
   */
  method FanOutPost<T>(targets: seq<T>, outcomes: seq<Outcome>) returns (ctx: Ctx, sent: seq<T>)
    requires |outcomes| == |targets|
    ensures sent == targets
    ensures AllFailed(outcomes, 0, |outcomes|) ==> ctx == Untouched
    ensures forall j: nat :: LastResponse(outcomes, |outcomes|, j) ==> ctx.status == Some(WriteStatus(outcomes[j]))
    ensures forall j: nat :: LastBody(outcomes, |outcomes|, j) ==> ctx.result == outcomes[j].body
    ensures (forall i :: 0 <= i < |outcomes| ==> outcomes[i].TransportFailure? || outcomes[i].body.None?) ==> ctx.result.None?
  {
    ctx, sent := Untouched, [];
    var k := 0;
    while k < |targets|
      invariant 0 <= k <= |targets|
      invariant sent == targets[..k]
      invariant AllFailed(outcomes, 0, k) ==> ctx == Untouched
      invariant forall j: nat :: LastResponse(outcomes, k, j) ==> ctx.status == Some(WriteStatus(outcomes[j]))
      invariant forall j: nat :: LastBody(outcomes, k, j) ==> ctx.result == outcomes[j].body
      invariant (forall i :: 0 <= i < k ==> outcomes[i].TransportFailure? || outcomes[i].body.None?) ==> ctx.result.None?
    {
      sent := sent + [targets[k]];
      LastResponseStep(outcomes, k + 1);
      if outcomes[k].Response? {
        if outcomes[k].body.None? {
          ctx := ctx.(status := Some(404));
        } else {
          ctx := Ctx(Some(200), outcomes[k].body);
        }
      }
      k := k + 1;
    }
  }

  /**
   * The delete loop of handleClientDelete and handleDelete: every target is
   * sent the delete, in order; the reply carries the status code of the last
   * target that answered, and no result.
   */
  method FanOutDelete<T>(targets: seq<T>, outcomes: seq<Outcome>) returns (ctx: Ctx, sent: seq<T>)
    requires |outcomes| == |targets|
    ensures sent == targets
    ensures ctx.result.None?
    ensures AllFailed(outcomes, 0, |outcomes|) ==> ctx.status.None?
    ensures forall j: nat :: LastResponse(outcomes, |outcomes|, j) ==> ctx.status == Some(outcomes[j].status)
  {
    ctx, sent := Untouched, [];
    var k := 0;
    while k < |targets|
      invariant 0 <= k <= |targets|
      invariant sent == targets[..k]
      invariant ctx.result.None?
      invariant AllFailed(outcomes, 0, k) ==> ctx.status.None?
      invariant forall j: nat :: LastResponse(outcomes, k, j) ==> ctx.status == Some(outcomes[j].status)
    {
      sent := sent + [targets[k]];
      LastResponseStep(outcomes, k + 1);
      if outcomes[k].Response? {
        ctx := ctx.(status := Some(outcomes[k].status));
      }
      k := k + 1;
    }
  }
}

=== FILE: ring.dfy ===
/**
 * The ring topology: node ids on a circle, looked up through an array view
 * of the ring.  The source takes that view from PriorityQueue.toArray,
 * which yields heap order; every lookup fact below that depends on order
 * therefore assumes the view is Sorted, which the source never establishes.
 */
module Ring {

  /** Strictly increasing: sorted and free of duplicates. */
  predicate Sorted(s: seq<int>)
  {
    forall i, j :: 0 <= i < j < |s| ==> s[i] < s[j]
  }

  predicate Distinct<T(==)>(s: seq<T>)
  {
    forall i, j :: 0 <= i < j < |s| ==> s[i] != s[j]
  }

  function Elements<T>(s: seq<T>): set<T>
  {
    set x | x in s
  }

  /** nodes is an array view of ring: it lists exactly the ring's members, in some order. */
  predicate ViewOf<T>(nodes: seq<T>, ring: set<T>)
  {
    Elements(nodes) == ring
  }

  /**
   * Reference definition of the lookup: the first position whose id is at
   * least id, or |s| when there is none (the caller wraps |s| to 0).
   */
  function FirstAtLeast(s: seq<int>, id: int): (i: nat)
    ensures i <= |s|
    ensures forall j :: 0 <= j < i ==> s[j] < id
    ensures i < |s| ==> s[i] >= id
  {
    if |s| == 0 || s[0] >= id then 0 else 1 + FirstAtLeast(s[1..], id)
  }

  /** The two conditions pin down FirstAtLeast. */
  lemma FirstAtLeastUnique(s: seq<int>, id: int, i: nat)
    requires i <= |s|
    requires forall j :: 0 <= j < i ==> s[j] < id
    requires i < |s| ==> s[i] >= id
    ensures FirstAtLeast(s, id) == i
  {
  }

  /**
   * calculateNodeIdx(long): binary search for the first member >= id, with
   * an early return on an exact match.  On a sorted view the result is the
   * reference lookup; an id that is a member is found at its own index.
   */
  method Search(nodes: seq<int>, id: int) returns (idx: nat)
    ensures idx <= |nodes|
    ensures Sorted(nodes) ==> idx == FirstAtLeast(nodes, id)
    ensures Sorted(nodes) && id in nodes ==> idx < |nodes| && nodes[idx] == id
  {
    var start, end := 0, |nodes|;
    while start < end
      invariant 0 <= start <= end <= |nodes|
      invariant Sorted(nodes) ==> forall j :: 0 <= j < start ==> nodes[j] < id
      invariant Sorted(nodes) ==> forall j :: end <= j < |nodes| ==> nodes[j] > id
    {
      var mid := start + (end - start) / 2;
      if nodes[mid] > id {
        end := mid;
      } else if nodes[mid] < id {
        start := mid + 1;
      } else {
        if Sorted(nodes) {
          FirstAtLeastUnique(nodes, id, mid);
        }
        return mid;
      }
    }
    if Sorted(nodes) {
      FirstAtLeastUnique(nodes, id, start);
    }
    idx := start;
  }

  /** list walks the ring array from position start: entry k is the entry at (start + k) mod n. */
  predicate WalksFrom<T(==)>(nodes: seq<T>, start: nat, list: seq<T>)
    requires |nodes| > 0
  {
    forall k :: 0 <= k < |list| ==> list[k] == nodes[(start + k) % |nodes|]
  }

  /**
   * The loop that fills a preference list: count consecutive ring entries
   * starting at position start, wrapping modulo the ring size.
   */
  function Successors<T>(nodes: seq<T>, start: nat, count: nat): (r: seq<T>)
    requires |nodes| > 0
    ensures |r| == count
    ensures forall k :: 0 <= k < count ==> r[k] == nodes[(start + k) % |nodes|]
  {
    if count == 0 then []
    else Successors(nodes, start, count - 1) + [nodes[(start + count - 1) % |nodes|]]
  }

  lemma MulBounds(k: int, n: int)
    requires n > 0
    ensures k >= 1 ==> k * n >= n
    ensures k <= -1 ==> k * n <= -n
  {
  }

  lemma ModOfShift(q: int, n: int, x: int)
    requires n > 0 && 0 <= x < n
    ensures (q * n + x) % n == x
  {
    var y := q * n + x;
    var t, m := y / n, y % n;
    assert y == t * n + m;
    assert (q - t) * n == m - x;
    MulBounds(q - t, n);
    assert q == t;
  }

  /** Reducing an index that is at most one lap out of range. */
  lemma ModSmall(x: int, n: int)
    requires 0 < n && x < n
    ensures -n <= x ==> x % n == if x < 0 then x + n else x
  {
    if x < -n {
    } else if x < 0 {
      ModOfShift(-1, n, x + n);
    } else {
      ModOfShift(0, n, x);
    }
  }

  /** One full lap does not change the index. */
  lemma WrapIndex(n: int, k: nat)
    requires n > 0
    ensures (n + k) % n == k % n
  {
    var t, m := k / n, k % n;
    assert k == t * n + m;
    assert n + k == (t + 1) * n + m;
    ModOfShift(t + 1, n, m);
  }

  /** Two positions less than one lap apart land on different indices. */
  lemma ModDistinct(a: nat, d: nat, n: nat)
    requires 0 < d < n
    ensures a % n != (a + d) % n
  {
    var q, r := a / n, a % n;
    assert a == q * n + r;
    if r + d < n {
      assert a + d == q * n + (r + d);
      ModOfShift(q, n, r + d);
    } else {
      assert a + d == (q + 1) * n + (r + d - n);
      ModOfShift(q + 1, n, r + d - n);
    }
  }

  /** With no more entries than ring members, a preference list never repeats a node. */
  lemma SuccessorsDistinct<T>(nodes: seq<T>, start: nat, count: nat)
    requires |nodes| > 0 && Distinct(nodes) && count <= |nodes|
    ensures Distinct(Successors(nodes, start, count))
  {
    var r := Successors(nodes, start, count);
    forall i, j | 0 <= i < j < count
      ensures r[i] != r[j]
    {
      ModDistinct(start + i, j - i, |nodes|);
    }
  }

  /** Starting a full lap further round the ring gives the same list. */
  lemma SuccessorsWrap<T>(nodes: seq<T>, start: nat, count: nat)
    requires |nodes| > 0
    ensures Successors(nodes, start + |nodes|, count) == Successors(nodes, start, count)
  {
    var a, b := Successors(nodes, start + |nodes|, count), Successors(nodes, start, count);
    forall k | 0 <= k < count
      ensures a[k] == b[k]
    {
      WrapIndex(|nodes|, start + k);
      assert start + |nodes| + k == |nodes| + (start + k);
    }
  }

}

=== FILE: wrappers.dfy ===
/** Optional values: the model's stand-in for Java's null and for "nothing was parsed". */
module Wrappers {

  datatype Option<+T> = None | Some(value: T)

  /** The smaller of two integers, as java.lang.Math.min. */
  function Min(a: int, b: int): (m: int)
    ensures m <= a && m <= b
    ensures m == a || m == b
  {
    if a <= b then a else b
  }
}
